=== FILE: README.md ===
# PropertyService: recommendation resolution and valuation, in Dafny

This project models the client-side service layer of a property-listing web
front-end: the `PropertyService` class in `src/services/propertyService.ts`.
It covers three parts:

- **Recommendation resolution** (`getRecommendations`). The pipeline checks
  the caller's filters and sends a primary request with fixed vector-search
  parameters. It checks the reply's shape with a duck-typed guard. Only when
  the guard refuses the reply does it send one relaxed fallback request. The
  accepted batch is normalised: prices are coerced and similarity scores
  defaulted. The batch is then ranked by descending similarity. Any throw
  ends the resolution with an empty list.
- **Valuation** (`getValuation`, `calculateAveragePrice`). The service returns
  a direct estimate with a ±10% range. When the prediction endpoint gives
  nothing, it returns the mean price of similar properties with a ±15% range
  and confidence 0.7. If that also fails, it rejects with one fixed error.
- **Property-data validation** (`validatePropertyData`). It returns an ordered
  list of error messages, and the data is valid exactly when the list is empty.

Modules:

- `Wrappers` (`wrappers.dfy`): `Option`, `Result`, and `Reply`. A `Reply` is
  what a remote call does: it returns a value or it throws.
- `Json` (`json.dfy`): JavaScript values (`Value`), records, truthiness, and
  property access.
- `Shape` (`shape.dfy`): the filter check and the reply type guard. Each is
  proved equal to a declarative description of the shapes it accepts.
- `Ranking` (`ranking.dfy`): `processRecommendations`. Its output is proved to
  be sorted, a permutation of the normalised batch, and unchanged outside
  `price` and `similarity_score`.
- `Resolver` (`resolver.dfy`): `getRecommendations`. The backend is a function
  from request to `Reply`. Each resolution returns the properties together
  with the log of requests it sent.
- `Valuation` (`valuation.dfy`): `getValuation`. The two endpoints
  (`predictPrice`, `getSimilarProperties`) are oracle functions. Each
  valuation returns its outcome together with the log of similar-properties
  queries it sent.
- `Listing` (`listing.dfy`): `PropertyData` and `validatePropertyData`.

Each operation is a pure function of its inputs and its oracles, so calling
it twice with the same filters and the same deterministic backend gives the
same output and the same request log.

In these places the code behaves in ways that are easy to miss; the model
follows the code:

- A throw from the primary backend call does not lead to the fallback. The
  `try` block catches it and returns `[]` after that single call.
  `propertyApi.getRecommendations` rethrows on a non-ok status
  (src/api/propertyApi.ts:76-85).
- A `null` element in `properties` preceded only by valid candidates makes
  the type guard throw. `typeof null` is `'object'`, so the guard goes on to
  read `null.id`; an earlier invalid element stops `every` before it. The resolution then
  ends with `[]` and no fallback. `Shape.CheckShape` returns `TypeError` for
  this case.
- A string `price` is replaced by the result of `parseFloat`, stored as it
  is. It is not left as given when parsing fails; a NaN or Infinity result
  falls outside `Json.Value`, so `parseFloat` is a parameter.
- The service does not promise an order among equal scores, so the model
  leaves it unstated. It proves only that the order is non-increasing and
  that no record is lost or added.
- `propertyApi.getRecommendations` returns `data.recommendations || []`. That
  is an array whenever the backend's `recommendations` is a list or missing,
  and an array has no `properties` field. In that case, with the API wrapper
  as written, every resolution ends empty, and one whose primary request
  returns costs both requests (`Resolver.BareArrayBackendYieldsNothing`).
  The model states the general policy for any backend.
- `propertyApi` (src/api/propertyApi.ts:13-87) defines no `predictPrice` and
  no `getSimilarProperties`. As wired, the call to `predictPrice` throws a
  TypeError inside the `try`, so every valuation rejects with the fixed
  error (`Valuation.ThrowingPredictionRejects`). The model states the policy
  for any pair of endpoints.

## Model

| member | source | states |
|---|---|---|
| Shape.FiltersAccepted | src/services/propertyService.ts:138-146 | The filter check accepts a value iff it is an object whose `location` and `propertyType` are strings and whose `price` and `bedrooms` are each a number or absent. `null`, `undefined`, primitives and arrays are refused. |
| Shape.CheckElements | src/services/propertyService.ts:129-134 | `every` over `properties` accepts iff every element is an object with a numeric `id`, a string `title` and a string `location`. When it accepts, the batch is those objects' records, in order. It throws iff it reaches a `null` after only good elements. |
| Shape.CheckShape | src/services/propertyService.ts:123-136 | The type guard accepts a reply iff the reply is an object holding a `properties` array of candidates. It throws iff that array holds a `null` preceded only by candidates. |
| Shape.EmptyBatchAccepted | src/services/propertyService.ts:126-129 | A reply with an empty `properties` array passes the guard, with an empty batch. |
| Shape.BareArrayRejected | src/services/propertyService.ts:124-128 | A bare array never passes the guard, whatever it holds. |
| Ranking.Score | src/services/propertyService.ts:153 | The comparator reads a numeric score as itself and `true` as 1. A missing or falsy score (`undefined`, `null`, `false`, 0, `""`) counts as 0, as `|| 0` makes it. |
| Ranking.Normalize | src/services/propertyService.ts:149-152 | The output record has the input's keys plus `price` and `similarity_score`. Every other field is unchanged. A string price becomes `parseFloat` of it, and any other price is kept. A falsy score becomes 0 and a truthy one is kept. The ranking score is unchanged. |
| Ranking.Insert | src/services/propertyService.ts:153 | Inserting a record into a batch sorted by descending score gives a sorted batch holding exactly one more copy of that record. |
| Ranking.SortByScore | src/services/propertyService.ts:153 | The sort returns a permutation of its input, non-increasing by similarity score. |
| Ranking.Process | src/services/propertyService.ts:148-154 | `processRecommendations` keeps the length and returns a permutation of the normalised batch, sorted non-increasing by score. |
| Ranking.ProcessDrawsFromBatch | src/services/propertyService.ts:149-153 | Every returned record is the normalised form of some input record. |
| Ranking.ProcessDefaultsScores | src/services/propertyService.ts:152-153 | Every returned record has a `similarity_score`, and it is truthy or 0. |
| Ranking.ProcessKeepsOtherFields | src/services/propertyService.ts:149-153 | With `price` and `similarity_score` removed, the output is a permutation of the input batch. Nothing else changes. |
| Resolver.PrimaryRequest | src/services/propertyService.ts:79-86 | The primary request is the caller's filters with `useFaiss`, `useEmbeddings`, `embeddingType='combined'`, `similarity_threshold=0.7` and `vector_search` set. Every other filter is sent unchanged. |
| Resolver.FallbackRequest | src/services/propertyService.ts:95-101 | The fallback request is the primary request with `similarity_threshold=0.5`, `include_nearby`, `price_range_buffer=0.2` and `vector_search_top_k=50`. Every other field is kept. |
| Resolver.GetRecommendations | src/services/propertyService.ts:71-120 | At most two requests are made. No request is made iff the filters are malformed, and then the result is empty. The first request is the primary one. A second request is made iff the guard refuses the primary reply without throwing, and it is the fallback. If the last reply passes the guard, the result is `processRecommendations` of its batch. Otherwise, after a throw or a refusal, the result is empty. |
| Resolver.FallbackRelaxes | src/services/propertyService.ts:79-101 | The fallback lowers the similarity threshold below the primary's. It adds nearby areas, a positive price buffer and a positive candidate pool. Every caller filter that no parameter overrides is sent unchanged in both requests. |
| Resolver.ResultRanked | src/services/propertyService.ts:109-112 | Whatever the backend does, the returned properties are non-increasing by similarity score. |
| Resolver.BareArrayBackendYieldsNothing | src/api/propertyApi.ts:65-86 | Against a backend that only throws or answers with bare arrays, the result is always empty. When the primary request returns, both requests are made. |
| Listing.FailedChecks | src/services/propertyService.ts:220-224 | The five checks run in the order location, total area, bedrooms, bathrooms, property type, and check `i` fails iff requirement `i` is unmet. Location and property type must be non-empty strings. Area, bedrooms and bathrooms must be present and positive, so a count of 0 fails because `!0` holds. |
| Listing.ValidatePropertyData | src/services/propertyService.ts:217-230 | `isValid` holds iff there are no errors. There are at most five errors. A check's message appears iff its requirement is unmet, every error is one of the five messages, no message appears twice, and the errors come in the fixed check order. |
| Valuation.SumPrices | src/services/propertyService.ts:204 | The left-to-right `reduce` sum, a missing price counting as 0, equals the total added up from the front, so the fold's direction does not matter. |
| Valuation.CalculateAveragePrice | src/services/propertyService.ts:200-206 | A missing or empty list averages to 0. Otherwise the average is the value whose list-length copies add up to the sum of the prices, a missing price counting as 0. |
| Valuation.SumBetween | src/services/propertyService.ts:204 | When every price lies in `[lo, hi]`, the `reduce` sum lies between `n·lo` and `n·hi`. |
| Valuation.AverageBetween | src/services/propertyService.ts:200-206 | The average of a non-empty list lies between its lowest and highest price. |
| Valuation.GetValuation | src/services/propertyService.ts:156-198 | At most one similar-properties query is sent, and one is sent iff `predictPrice` returned something falsy. That query carries the property data unchanged, with `similarity_threshold=0.6` and `include_pending` set. Every failure is the fixed "Failed to get property valuation" error, and a throw from `predictPrice` is a failure. A direct estimate is kept with range ±10%, and a missing or zero confidence becomes 0.8. After a query, the valuation succeeds iff that query's reply is truthy. The estimate is then the average similar price, with confidence 0.7 and range ±15%. |
| Valuation.OnlyLoggedQueriesMatter | src/services/propertyService.ts:158-172 | Two similar-properties endpoints that answer the logged queries alike give the same valuation and the same log. |
| Valuation.ThrowingPredictionRejects | src/services/propertyService.ts:157-197 | When `predictPrice` throws, as it does when the API object lacks it, the valuation rejects with the fixed error and sends no similar-properties query. |
| Valuation.RangeBracketsEstimate | src/services/propertyService.ts:174-191 | On success, `min ≤ estimate ≤ max` holds iff the estimate is not negative. |
| Valuation.FallbackEstimateBounded | src/services/propertyService.ts:172-182 | When the similar prices lie in `[lo, hi]` with `lo ≥ 0`, the fallback valuation succeeds, and its estimate lies in `[lo, hi]` and inside its own range. |
| Valuation.DirectEstimateIgnoresFallback | src/services/propertyService.ts:158-166 | The similar-properties endpoint affects the result only when `predictPrice` returned something falsy. |
| Valuation.DirectEstimateExample | src/services/propertyService.ts:185-193 | An estimate of 1,000,000 with confidence 0.85 gives the range 900,000 to 1,100,000. |
| Valuation.FallbackEstimateExample | src/services/propertyService.ts:172-182 | Similar prices of 900,000 and 1,100,000 give the estimate 1,000,000 with confidence 0.7 and the range 850,000 to 1,150,000. |

## Left out

- React components and pages: UI state and rendering.
- `propertyApi`'s fetch plumbing, base-URL configuration and HTTP status handling. Every endpoint is an oracle that returns a value or throws.
- The Flask backend and its machine-learning models, and the SQLAlchemy schema. They are outside the client-side service.
- `formatPrice`: it renders numbers with `toFixed` and `toLocaleString`, which are floating-point and locale formatting.
- `parseFloat`: it is a parameter of the model, so JavaScript's number syntax is not interpreted.
- `console` logging, `async`/`await`, and the `Error` objects' text other than the valuation error. The two backend calls are strictly sequential.
- NaN and ±Infinity are not `Json.Value`s. JSON text cannot carry them, but the caller's filters are plain JavaScript objects: a `price` or `bedrooms` built with `Number`, `parseInt` or `parseFloat` from form text may be NaN or ±Infinity. The filter check accepts such a value as a number (`typeof` is `'number'`) and forwards it unchanged in both requests; the model cannot express these inputs. `parseFloat`, a parameter, is the other source. All arithmetic is over exact reals, not IEEE doubles.
- Ranking.Score: a truthy similarity score that is not a number ranks as 0, and `true` ranks as 1. JavaScript's `-` in the comparator would coerce a string, array or object with `ToNumber` (a score of `[5]` ranks 5), and a NaN from the comparator makes the sort order implementation-defined.
- Ranking.SortByScore: the order among equal scores is not stated. The service does not promise it, although a stable `Array.prototype.sort` keeps the normalised batch's order.
- Valuation.GetValuation: replies are taken in their declared shapes: objects with numeric prices and lists of similar properties. JavaScript's coercions for a truthy non-object reply or a non-numeric price are not modelled. Nor is the TypeError from a `null` element or a non-array `similar_properties`. All of these end in NaN, string concatenation or the wrapped error.
- Listing.ValidatePropertyData: `PropertyData` fields are typed, with strings for the texts and numbers for the counts. Truthiness tests on values of other types, and NaN counts, are not modelled.

=== FILE: json.dfy ===
/**
 * JavaScript values as they arrive from `response.json()` and as the caller
 * hands them in: the dynamically typed data the service inspects with
 * `typeof`, `in` and truthiness.
 */
module Json {

  /**
   * A JavaScript value. `Num` is an exact real: JSON text cannot carry NaN
   * or Infinity, but a caller's plain object can, and those numbers have no
   * `Value` here.
   */
  datatype Value =
    | Undefined
    | Null
    | Bool(b: bool)
    | Num(n: real)
    | Str(s: string)
    | Arr(items: seq<Value>)
    | Obj(fields: map<string, Value>)

  /** An object's own properties; the spread `{...o}` copies exactly these. */
  type Record = map<string, Value>

  /** JavaScript truthiness: `undefined`, `null`, `false`, `0` and `""` are falsy. */
  predicate Truthy(v: Value) {
    match v
    case Undefined => false
    case Null => false
    case Bool(b) => b
    case Num(n) => n != 0.0
    case Str(s) => s != ""
    case Arr(_) => true
    case Obj(_) => true
  }

  /** `o.k` on a record: a missing key reads as `undefined`. */
  function Get(o: Record, k: string): (v: Value)
    ensures k in o ==> v == o[k]
    ensures k !in o ==> v == Undefined
  {
    if k in o then o[k] else Undefined
  }

  /**
   * `v.k` on any non-nullish value, for the named data keys the service reads
   * (`location`, `id`, `price`, ...): only objects carry them; primitives and
   * arrays read them as `undefined`.
   */
  function Prop(v: Value, k: string): (r: Value)
    requires !v.Null? && !v.Undefined?
    ensures !v.Obj? ==> r == Undefined
  {
    match v
    case Obj(o) => Get(o, k)
    case _ => Undefined
  }

  /** `typeof v === 'object'`: true of objects, arrays and `null`. */
  predicate TypeofObject(v: Value) {
    v.Obj? || v.Arr? || v.Null?
  }
}

=== FILE: listing.dfy ===
/**
 * The property descriptor a valuation form submits, and
 * `validatePropertyData` (src/services/propertyService.ts, lines 217-230).
 */
module Listing {
  import opened Wrappers

  /** `PropertyData`; a field the form left out is `None`. */
  datatype PropertyData = PropertyData(
    location: Option<string>,
    total_area: Option<real>,
    bedrooms: Option<real>,
    bathrooms: Option<real>,
    property_type: Option<string>,
    amenities: seq<string>)

  /** `{ isValid, errors }` as `validatePropertyData` returns it. */
  datatype ValidationReport = ValidationReport(isValid: bool, errors: seq<string>)

  /** The error message of check `i`, in the order the checks run. */
  function Message(i: nat): string
    requires i < 5
  {
    if i == 0 then "Location is required"
    else if i == 1 then "Valid total area is required"
    else if i == 2 then "Valid number of bedrooms is required"
    else if i == 3 then "Valid number of bathrooms is required"
    else "Property type is required"
  }

  /** `!s` for an optional string: missing or empty. */
  predicate FalsyText(s: Option<string>) {
    s.None? || s.value == ""
  }

  /** `!x` for an optional number: missing or zero. */
  predicate FalsyNumber(x: Option<real>) {
    x.None? || x.value == 0.0
  }

  /** A count or area that is present and strictly positive. */
  ghost predicate Positive(x: Option<real>) {
    x.Some? && x.value > 0.0
  }

  /** The requirement behind `Message(i)`, stated positively. */
  ghost predicate Meets(d: PropertyData, i: int)
    requires 0 <= i < 5
  {
    if i == 0 then d.location.Some? && d.location.value != ""
    else if i == 1 then Positive(d.total_area)
    else if i == 2 then Positive(d.bedrooms)
    else if i == 3 then Positive(d.bathrooms)
    else d.property_type.Some? && d.property_type.value != ""
  }

  /** The five messages in check order. */
  function AllMessages(): (ms: seq<string>)
    ensures |ms| == 5
    ensures forall i :: 0 <= i < 5 ==> ms[i] == Message(i)
  {
    [Message(0), Message(1), Message(2), Message(3), Message(4)]
  }

  /** Distinct checks report distinct messages (the five differ in length). */
  lemma MessageInjective(i: nat, k: nat)
    requires i < 5 && k < 5 && i != k
    ensures Message(i) != Message(k)
  {
    assert |Message(i)| != |Message(k)|;
  }

  /**
   * The outcome of the five checks, in the order they run: `true` where a
   * check fails. A check fails exactly when its requirement is unmet:
   * `!x || x <= 0` for the area and `!x || x < 0` for the counts both reject
   * everything but a positive number, since `!0` holds.
   */
  function FailedChecks(d: PropertyData): (fs: seq<bool>)
    ensures |fs| == 5
    ensures forall i :: 0 <= i < 5 ==> (fs[i] <==> !Meets(d, i))
  {
    [ FalsyText(d.location),
      FalsyNumber(d.total_area) || d.total_area.value <= 0.0,
      FalsyNumber(d.bedrooms) || d.bedrooms.value < 0.0,
      FalsyNumber(d.bathrooms) || d.bathrooms.value < 0.0,
      FalsyText(d.property_type) ]
  }

  /** The positions from `i` onwards where `fs` holds, in increasing order. */
  function TrueFrom(fs: seq<bool>, i: nat): (ks: seq<nat>)
    requires i <= |fs|
    ensures |ks| <= |fs| - i
    ensures forall j :: 0 <= j < |ks| ==> i <= ks[j] < |fs| && fs[ks[j]]
    ensures forall k :: i <= k < |fs| && fs[k] ==> k in ks
    ensures forall j, l :: 0 <= j < l < |ks| ==> ks[j] < ks[l]
    decreases |fs| - i
  {
    if i == |fs| then []
    else (if fs[i] then [i] else []) + TrueFrom(fs, i + 1)
  }

  /** `errors.push` for each failing check, in order. */
  function MessagesOf(ks: seq<nat>): (ms: seq<string>)
    requires forall j :: 0 <= j < |ks| ==> ks[j] < 5
    ensures |ms| == |ks|
    ensures forall j :: 0 <= j < |ks| ==> ms[j] == Message(ks[j])
  {
    seq(|ks|, j requires 0 <= j < |ks| => Message(ks[j]))
  }

  /** A message is reported exactly when its check is among those listed. */
  lemma MessagesOfMembership(ks: seq<nat>, i: nat)
    requires forall j :: 0 <= j < |ks| ==> ks[j] < 5
    requires i < 5
    ensures Message(i) in MessagesOf(ks) <==> i in ks
  {
    var ms := MessagesOf(ks);
    if i in ks {
      var j :| 0 <= j < |ks| && ks[j] == i;
      assert ms[j] == Message(i);
    }
    if Message(i) in ms {
      var j :| 0 <= j < |ms| && ms[j] == Message(i);
      if ks[j] != i {
        MessageInjective(ks[j], i);
      }
    }
  }

  /** Every message of a list of checks is one of the five. */
  lemma MessagesOfKnown(ks: seq<nat>)
    requires forall j :: 0 <= j < |ks| ==> ks[j] < 5
    ensures forall j :: 0 <= j < |ks| ==> MessagesOf(ks)[j] in AllMessages()
  {
    forall j | 0 <= j < |ks|
      ensures MessagesOf(ks)[j] in AllMessages()
    {
      assert AllMessages()[ks[j]] == MessagesOf(ks)[j];
    }
  }

  /** The check behind a listed message is the one that message belongs to. */
  lemma MessagesOfSource(ks: seq<nat>, j: nat, a: nat)
    requires forall l :: 0 <= l < |ks| ==> ks[l] < 5
    requires j < |ks| && a < 5
    requires MessagesOf(ks)[j] == Message(a)
    ensures ks[j] == a
  {
    if ks[j] != a {
      MessageInjective(ks[j], a);
    }
  }

  /** The messages of an increasing list of checks come in check order. */
  lemma MessagesOfOrdered(ks: seq<nat>)
    requires forall j :: 0 <= j < |ks| ==> ks[j] < 5
    requires forall j, l :: 0 <= j < l < |ks| ==> ks[j] < ks[l]
    ensures forall a, b, j, k ::
      (0 <= a < b < 5 && 0 <= j < |ks| && 0 <= k < |ks|
       && MessagesOf(ks)[j] == Message(a) && MessagesOf(ks)[k] == Message(b)) ==> j < k
  {
    var ms := MessagesOf(ks);
    forall a, b, j, k |
      0 <= a < b < 5 && 0 <= j < |ks| && 0 <= k < |ks| && ms[j] == Message(a) && ms[k] == Message(b)
      ensures j < k
    {
      MessagesOfSource(ks, j, a);
      MessagesOfSource(ks, k, b);
      assert ks[j] < ks[k];
    }
  }

  /** An increasing list of checks reports no message twice. */
  lemma MessagesOfDistinct(ks: seq<nat>)
    requires forall j :: 0 <= j < |ks| ==> ks[j] < 5
    requires forall j, l :: 0 <= j < l < |ks| ==> ks[j] < ks[l]
    ensures forall j, l :: 0 <= j < l < |ks| ==> MessagesOf(ks)[j] != MessagesOf(ks)[l]
  {
    forall j, l | 0 <= j < l < |ks|
      ensures MessagesOf(ks)[j] != MessagesOf(ks)[l]
    {
      MessageInjective(ks[j], ks[l]);
    }
  }

  /**
   * `validatePropertyData`: one message per failed requirement, in the order
   * location, total area, bedrooms, bathrooms, property type; the data is
   * valid exactly when there is none. A zero bedroom or bathroom count fails
   * like a missing one (`!0` holds), so every count must be positive.
   */
  function ValidatePropertyData(d: PropertyData): (r: ValidationReport)
    ensures r.isValid <==> r.errors == []
    ensures |r.errors| <= 5
    ensures forall i :: 0 <= i < 5 ==> (Message(i) in r.errors <==> !Meets(d, i))
    ensures forall j :: 0 <= j < |r.errors| ==> r.errors[j] in AllMessages()
    ensures forall a, b, j, k ::
      (0 <= a < b < 5 && 0 <= j < |r.errors| && 0 <= k < |r.errors|
       && r.errors[j] == Message(a) && r.errors[k] == Message(b)) ==> j < k
    ensures forall j, k :: 0 <= j < k < |r.errors| ==> r.errors[j] != r.errors[k]
  {
    var failing := TrueFrom(FailedChecks(d), 0);
    forall i | 0 <= i < 5
      ensures Message(i) in MessagesOf(failing) <==> !Meets(d, i)
    {
      MessagesOfMembership(failing, i);
    }
    MessagesOfKnown(failing);
    MessagesOfOrdered(failing);
    MessagesOfDistinct(failing);
    var errors := MessagesOf(failing);
    ValidationReport(|errors| == 0, errors)
  }
}

=== FILE: ranking.dfy ===
/**
 * `processRecommendations`: each accepted record has its `price` coerced and
 * its `similarity_score` defaulted, and the batch is ordered by descending
 * score (src/services/propertyService.ts, lines 148-154).
 */
module Ranking {
  import opened Json

  /**
   * The number the comparator `(b.similarity_score || 0) - (a.similarity_score || 0)`
   * reads from a record: a number is itself, `true` is 1, and a missing or
   * falsy score is 0.
   */
  function Score(r: Record): (s: real)
    ensures Get(r, "similarity_score").Num? ==> s == Get(r, "similarity_score").n
    ensures !Truthy(Get(r, "similarity_score")) ==> s == 0.0
    ensures Get(r, "similarity_score") == Bool(true) ==> s == 1.0
  {
    match Get(r, "similarity_score")
    case Num(n) => n
    case Bool(b) => if b then 1.0 else 0.0
    case _ => 0.0
  }

  /**
   * The record `{...prop, price: ..., similarity_score: ...}` made for one
   * input record. `parseFloat` is a parameter: the model does not interpret
   * JavaScript's number syntax.
   */
  function Normalize(r: Record, parseFloat: string -> Value): (n: Record)
    ensures n.Keys == r.Keys + {"price", "similarity_score"}
    ensures forall k :: k in r && k != "price" && k != "similarity_score" ==> n[k] == r[k]
    ensures Get(r, "price").Str? ==> n["price"] == parseFloat(Get(r, "price").s)
    ensures !Get(r, "price").Str? ==> n["price"] == Get(r, "price")
    ensures Truthy(Get(r, "similarity_score")) ==> n["similarity_score"] == r["similarity_score"]
    ensures !Truthy(Get(r, "similarity_score")) ==> n["similarity_score"] == Num(0.0)
    ensures Score(n) == Score(r)
  {
    var p := Get(r, "price");
    var s := Get(r, "similarity_score");
    r["price" := if p.Str? then parseFloat(p.s) else p]["similarity_score" := if Truthy(s) then s else Num(0.0)]
  }

  /** `properties.map(...)`: every record normalised, in input order. */
  function NormalizeAll(rs: seq<Record>, parseFloat: string -> Value): (ns: seq<Record>)
    ensures |ns| == |rs|
    ensures forall i :: 0 <= i < |rs| ==> ns[i] == Normalize(rs[i], parseFloat)
  {
    seq(|rs|, i requires 0 <= i < |rs| => Normalize(rs[i], parseFloat))
  }

  /** Non-increasing by score: what the comparator `b - a` asks of the sorted array. */
  ghost predicate SortedByScore(s: seq<Record>) {
    forall i, j :: 0 <= i < j < |s| ==> Score(s[i]) >= Score(s[j])
  }

  /** Places `x` into a batch already ordered by descending score. */
  function Insert(x: Record, s: seq<Record>): (r: seq<Record>)
    requires SortedByScore(s)
    ensures SortedByScore(r)
    ensures multiset(r) == multiset(s) + multiset{x}
  {
    if |s| == 0 then [x]
    else if Score(x) >= Score(s[0]) then [x] + s
    else
      var tail := Insert(x, s[1..]);
      assert s == [s[0]] + s[1..];
      HeadDominates(s[0], x, s[1..], tail);
      SortedCons(s[0], tail);
      [s[0]] + tail
  }

  /** A record scoring at least as high as `x` and as everything in `rest` scores at least as high as any permutation of them. */
  lemma HeadDominates(h: Record, x: Record, rest: seq<Record>, tail: seq<Record>)
    requires Score(h) >= Score(x)
    requires forall m :: 0 <= m < |rest| ==> Score(h) >= Score(rest[m])
    requires multiset(tail) == multiset(rest) + multiset{x}
    ensures forall k :: 0 <= k < |tail| ==> Score(h) >= Score(tail[k])
  {
    forall k | 0 <= k < |tail|
      ensures Score(h) >= Score(tail[k])
    {
      assert tail[k] in multiset(tail);
      if tail[k] != x {
        assert tail[k] in multiset(rest);
        var m :| 0 <= m < |rest| && rest[m] == tail[k];
      }
    }
  }

  lemma SortedCons(h: Record, tail: seq<Record>)
    requires SortedByScore(tail)
    requires forall k :: 0 <= k < |tail| ==> Score(h) >= Score(tail[k])
    ensures SortedByScore([h] + tail)
  {
    var r := [h] + tail;
    forall i, j | 0 <= i < j < |r|
      ensures Score(r[i]) >= Score(r[j])
    {
      assert r[j] == tail[j - 1];
      if i > 0 {
        assert r[i] == tail[i - 1];
      }
    }
  }

  /** `.sort(...)` by descending score. The order among equal scores is left to the sort. */
  function SortByScore(s: seq<Record>): (r: seq<Record>)
    ensures SortedByScore(r)
    ensures multiset(r) == multiset(s)
  {
    if |s| == 0 then []
    else
      assert s == [s[0]] + s[1..];
      Insert(s[0], SortByScore(s[1..]))
  }

  /**
   * `processRecommendations`: a permutation of the normalised batch, ordered
   * by descending score, in which every record carries a `similarity_score`
   * that is truthy or 0.
   */
  function Process(batch: seq<Record>, parseFloat: string -> Value): (out: seq<Record>)
    ensures |out| == |batch|
    ensures SortedByScore(out)
    ensures multiset(out) == multiset(NormalizeAll(batch, parseFloat))
  {
    var out := SortByScore(NormalizeAll(batch, parseFloat));
    assert |out| == |multiset(out)|;
    out
  }

  /** Every record `processRecommendations` returns is the normalised form of one of its input records. */
  lemma ProcessDrawsFromBatch(batch: seq<Record>, parseFloat: string -> Value)
    ensures forall j :: 0 <= j < |Process(batch, parseFloat)| ==>
      exists i :: 0 <= i < |batch| && Process(batch, parseFloat)[j] == Normalize(batch[i], parseFloat)
  {
    var out := Process(batch, parseFloat);
    var ns := NormalizeAll(batch, parseFloat);
    forall j | 0 <= j < |out|
      ensures exists i :: 0 <= i < |batch| && out[j] == Normalize(batch[i], parseFloat)
    {
      assert out[j] in multiset(ns);
      var i :| 0 <= i < |ns| && ns[i] == out[j];
    }
  }

  /** Every returned record carries a `similarity_score`, and it is truthy or 0. */
  lemma ProcessDefaultsScores(batch: seq<Record>, parseFloat: string -> Value)
    ensures forall j :: 0 <= j < |Process(batch, parseFloat)| ==>
      var s := Process(batch, parseFloat)[j];
      "similarity_score" in s && (Truthy(s["similarity_score"]) || s["similarity_score"] == Num(0.0))
  {
    ProcessDrawsFromBatch(batch, parseFloat);
  }

  /** A record without the two fields `processRecommendations` rewrites. */
  function Strip(r: Record): Record {
    r - {"price", "similarity_score"}
  }

  function StripAll(s: seq<Record>): (t: seq<Record>)
    ensures |t| == |s|
    ensures forall i :: 0 <= i < |s| ==> t[i] == Strip(s[i])
  {
    seq(|s|, i requires 0 <= i < |s| => Strip(s[i]))
  }

  lemma StripAllAppend(a: seq<Record>, b: seq<Record>)
    ensures StripAll(a + b) == StripAll(a) + StripAll(b)
  {
    assert forall i :: 0 <= i < |a + b| ==> StripAll(a + b)[i] == (StripAll(a) + StripAll(b))[i];
  }

  /** Stripping two permutations of each other gives permutations of each other. */
  lemma {:induction false} StripPermutation(s: seq<Record>, t: seq<Record>)
    requires multiset(s) == multiset(t)
    ensures multiset(StripAll(s)) == multiset(StripAll(t))
    decreases |s|
  {
    if |s| == 0 {
      assert |t| == |multiset(t)| == 0;
    } else {
      var x := s[0];
      assert x in multiset(t);
      var m :| 0 <= m < |t| && t[m] == x;
      var before, after := t[..m], t[m + 1..];
      assert t == before + [x] + after;
      assert s == [x] + s[1..];
      var rest := before + after;
      assert multiset(rest) == multiset(t) - multiset{x};
      assert multiset(s[1..]) == multiset(s) - multiset{x};
      StripPermutation(s[1..], rest);
      StripAllAppend([x], s[1..]);
      StripAllAppend(before, after);
      StripAllAppend(before + [x], after);
      StripAllAppend(before, [x]);
    }
  }

  /**
   * Nothing but `price` and `similarity_score` changes: with those two fields
   * removed, the output is a permutation of the input batch.
   */
  lemma ProcessKeepsOtherFields(batch: seq<Record>, parseFloat: string -> Value)
    ensures multiset(StripAll(Process(batch, parseFloat))) == multiset(StripAll(batch))
  {
    var ns := NormalizeAll(batch, parseFloat);
    StripPermutation(Process(batch, parseFloat), ns);
    forall i | 0 <= i < |batch|
      ensures Strip(ns[i]) == Strip(batch[i])
    {
      assert Strip(ns[i]).Keys == Strip(batch[i]).Keys;
    }
    assert StripAll(ns) == StripAll(batch);
  }
}

=== FILE: resolver.dfy ===
/**
 * `getRecommendations` (src/services/propertyService.ts, lines 71-120): the
 * recommendation resolution pipeline. The backend endpoint is an oracle from
 * request to reply, and the resolution records every request it sent.
 */
module Resolver {
  import opened Wrappers
  import opened Json
  import opened Shape
  import opened Ranking

  /** The search parameters the primary request sets over the caller's filters. */
  const PrimaryParams: Record := map[
    "useFaiss" := Bool(true),
    "useEmbeddings" := Bool(true),
    "embeddingType" := Str("combined"),
    "similarity_threshold" := Num(0.7),
    "vector_search" := Bool(true)
  ]

  /** The relaxed parameters the fallback request sets over the primary request. */
  const FallbackParams: Record := map[
    "similarity_threshold" := Num(0.5),
    "include_nearby" := Bool(true),
    "price_range_buffer" := Num(0.2),
    "vector_search_top_k" := Num(50.0)
  ]

  /** `{...filters, useFaiss: true, ...}`: the caller's filters with the primary parameters on top. */
  function PrimaryRequest(filters: Record): (q: Record)
    ensures q.Keys == filters.Keys + {"useFaiss", "useEmbeddings", "embeddingType", "similarity_threshold", "vector_search"}
    ensures q["useFaiss"] == Bool(true) && q["useEmbeddings"] == Bool(true)
    ensures q["embeddingType"] == Str("combined")
    ensures q["similarity_threshold"] == Num(0.7) && q["vector_search"] == Bool(true)
    ensures forall k :: k in filters && k !in PrimaryParams ==> q[k] == filters[k]
  {
    filters + PrimaryParams
  }

  /** `{...enhancedFilters, similarity_threshold: 0.5, ...}`: the primary request relaxed. */
  function FallbackRequest(primary: Record): (q: Record)
    ensures q.Keys == primary.Keys + {"similarity_threshold", "include_nearby", "price_range_buffer", "vector_search_top_k"}
    ensures q["similarity_threshold"] == Num(0.5) && q["include_nearby"] == Bool(true)
    ensures q["price_range_buffer"] == Num(0.2) && q["vector_search_top_k"] == Num(50.0)
    ensures forall k :: k in primary && k !in FallbackParams ==> q[k] == primary[k]
  {
    primary + FallbackParams
  }

  /** What one resolution produced: the properties returned and the requests sent, in order. */
  datatype Resolution = Resolution(properties: seq<Record>, calls: seq<Record>)

  /** The backend answered `q` with a reply the type guard accepts. */
  ghost predicate Accepts(backend: Record -> Reply<Value>, q: Record) {
    backend(q).Returned? && WellShaped(backend(q).value)
  }

  /** The backend answered `q` with a reply the type guard refuses without throwing. */
  ghost predicate Refuses(backend: Record -> Reply<Value>, q: Record) {
    backend(q).Returned? && CheckShape(backend(q).value).Rejected?
  }

  /**
   * `getRecommendations`. Malformed filters send nothing. Otherwise the
   * primary request goes out; only a reply the type guard refuses leads to
   * the one fallback request. A throw, from a backend call or from the type
   * guard, ends the resolution with no properties and no further request.
   */
  function GetRecommendations(filters: Value, backend: Record -> Reply<Value>, parseFloat: string -> Value): (r: Resolution)
    ensures |r.calls| <= 2
    ensures r.calls == [] <==> !WellFormedFilters(filters)
    ensures r.calls == [] ==> r.properties == []
    ensures r.calls != [] ==> r.calls[0] == PrimaryRequest(filters.fields)
    ensures |r.calls| == 2 <==> WellFormedFilters(filters) && Refuses(backend, PrimaryRequest(filters.fields))
    ensures |r.calls| == 2 ==> r.calls[1] == FallbackRequest(r.calls[0])
    ensures r.calls != [] && Accepts(backend, r.calls[|r.calls| - 1]) ==>
      r.properties == Process(CheckShape(backend(r.calls[|r.calls| - 1]).value).batch, parseFloat)
    ensures r.calls != [] && !Accepts(backend, r.calls[|r.calls| - 1]) ==> r.properties == []
  {
    if !FiltersAccepted(filters) then Resolution([], [])
    else
      var primary := PrimaryRequest(filters.fields);
      match backend(primary)
      case Threw => Resolution([], [primary])
      case Returned(resp) =>
        match CheckShape(resp)
        case Accepted(batch) => Resolution(Process(batch, parseFloat), [primary])
        case TypeError => Resolution([], [primary])
        case Rejected =>
          var fallback := FallbackRequest(primary);
          var calls := [primary, fallback];
          match backend(fallback)
          case Threw => Resolution([], calls)
          case Returned(resp2) =>
            match CheckShape(resp2)
            case Accepted(batch2) => Resolution(Process(batch2, parseFloat), calls)
            case _ => Resolution([], calls)
  }

  /**
   * The fallback only loosens the primary request: a lower similarity floor,
   * nearby areas, a 20% price buffer and a 50-candidate pool, with every
   * filter of the caller's that no parameter overrides sent unchanged.
   */
  lemma FallbackRelaxes(filters: Record)
    ensures var primary := PrimaryRequest(filters);
      var fallback := FallbackRequest(primary);
      && fallback["similarity_threshold"].n < primary["similarity_threshold"].n
      && fallback["include_nearby"] == Bool(true)
      && fallback["price_range_buffer"].n > 0.0
      && fallback["vector_search_top_k"].n > 0.0
      && (forall k :: k in filters && k !in PrimaryParams && k !in FallbackParams ==>
            fallback[k] == primary[k] == filters[k])
  {
  }

  /** Whatever the backend does, the properties returned are ordered by descending score. */
  lemma ResultRanked(filters: Value, backend: Record -> Reply<Value>, parseFloat: string -> Value)
    ensures SortedByScore(GetRecommendations(filters, backend, parseFloat).properties)
  {
  }

  /**
   * Against a backend that only ever answers with a bare array, as the
   * `propertyApi.getRecommendations` wrapper does (it returns
   * `data.recommendations || []`), no property ever comes back, and
   * well-formed filters always cost both requests unless the primary throws.
   */
  lemma BareArrayBackendYieldsNothing(filters: Value, backend: Record -> Reply<Value>, parseFloat: string -> Value)
    requires forall q :: backend(q).Threw? || backend(q).value.Arr?
    ensures GetRecommendations(filters, backend, parseFloat).properties == []
    ensures WellFormedFilters(filters) && backend(PrimaryRequest(filters.fields)).Returned? ==>
      |GetRecommendations(filters, backend, parseFloat).calls| == 2
  {
    if WellFormedFilters(filters) {
      var primary := PrimaryRequest(filters.fields);
      if backend(primary).Returned? {
        BareArrayRejected(backend(primary).value.items);
      }
      var fallback := FallbackRequest(primary);
      if backend(fallback).Returned? {
        BareArrayRejected(backend(fallback).value.items);
      }
    }
  }
}

=== FILE: shape.dfy ===
/**
 * The two duck-typed guards of the recommendation path: the check on the
 * caller's filters and the type guard on a backend reply
 * (src/services/propertyService.ts, `validateRecommendationFilters` and
 * `isValidRecommendationResponse`).
 */
module Shape {
  import opened Json

  /** A field that is either a number or absent (`undefined`). */
  predicate NumberOrAbsent(o: Record, k: string) {
    k !in o || o[k].Num? || o[k].Undefined?
  }

  /** The filters the resolver is willing to send: an object with string `location` and `propertyType`. */
  ghost predicate WellFormedFilters(f: Value) {
    && f.Obj?
    && "location" in f.fields && f.fields["location"].Str?
    && "propertyType" in f.fields && f.fields["propertyType"].Str?
    && NumberOrAbsent(f.fields, "price")
    && NumberOrAbsent(f.fields, "bedrooms")
  }

  /**
   * `validateRecommendationFilters`: the source's chain of truthiness and
   * `typeof` tests over a value of any kind. It accepts exactly the
   * well-formed filter objects: a primitive, an array, `null` or `undefined`
   * is refused, and so is an object whose `location` or `propertyType` is not
   * a string or whose `price` or `bedrooms` is present but not a number.
   */
  function FiltersAccepted(f: Value): (ok: bool)
    ensures ok <==> WellFormedFilters(f)
  {
    && Truthy(f)
    && Prop(f, "location").Str?
    && Prop(f, "propertyType").Str?
    && (Prop(f, "price").Num? || Prop(f, "price").Undefined?)
    && (Prop(f, "bedrooms").Num? || Prop(f, "bedrooms").Undefined?)
  }

  /** One element of `properties` as the type guard wants it. */
  ghost predicate Candidate(v: Value) {
    && v.Obj?
    && "id" in v.fields && v.fields["id"].Num?
    && "title" in v.fields && v.fields["title"].Str?
    && "location" in v.fields && v.fields["location"].Str?
  }

  /** A reply the type guard accepts: an object whose `properties` is an array of candidates. */
  ghost predicate WellShaped(resp: Value) {
    && resp.Obj?
    && "properties" in resp.fields
    && resp.fields["properties"].Arr?
    && forall i :: 0 <= i < |resp.fields["properties"].items| ==> Candidate(resp.fields["properties"].items[i])
  }

  /** The `properties` array holds a `null` and every element before it is a candidate. */
  ghost predicate NullAfterCandidates(items: seq<Value>) {
    exists i :: 0 <= i < |items| && items[i].Null? && forall j :: 0 <= j < i ==> Candidate(items[j])
  }

  /**
   * What evaluating the type guard does: it returns true (and the batch of
   * records it vouches for), returns false, or throws a TypeError, which it
   * does when `every` reaches a `null` element: `typeof null` is `'object'`,
   * so the guard goes on to read `null.id`.
   */
  datatype Verdict = Accepted(batch: seq<Record>) | Rejected | TypeError

  /** The records inside a sequence of candidates. */
  ghost predicate BatchOf(batch: seq<Record>, items: seq<Value>) {
    && |batch| == |items|
    && forall i :: 0 <= i < |items| ==> items[i].Obj? && batch[i] == items[i].fields
  }

  /** `properties.every(prop => typeof prop === 'object' && ...)`, stopping at the first element that fails. */
  function CheckElements(items: seq<Value>): (v: Verdict)
    ensures v.Accepted? <==> forall i :: 0 <= i < |items| ==> Candidate(items[i])
    ensures v.Accepted? ==> BatchOf(v.batch, items)
    ensures v.TypeError? <==> NullAfterCandidates(items)
  {
    if |items| == 0 then Accepted([])
    else
      var head := items[0];
      if !TypeofObject(head) then Rejected
      else if head.Null? then TypeError
      else if !(Prop(head, "id").Num? && Prop(head, "title").Str? && Prop(head, "location").Str?) then Rejected
      else
        var rest := CheckElements(items[1..]);
        assert forall i :: 1 <= i < |items| ==> items[i] == items[1..][i - 1];
        match rest
        case Accepted(tail) => Accepted([head.fields] + tail)
        case Rejected => Rejected
        case TypeError =>
          assert NullAfterCandidates(items) by {
            var k :| 0 <= k < |items[1..]| && items[1..][k].Null? && forall j :: 0 <= j < k ==> Candidate(items[1..][j]);
            assert items[k + 1].Null?;
          }
          TypeError
  }

  /**
   * `isValidRecommendationResponse`: a falsy or non-object reply is refused,
   * and so is an array (it has no `properties`) or an object without a
   * `properties` array; otherwise the elements decide.
   */
  function CheckShape(resp: Value): (v: Verdict)
    ensures v.Accepted? <==> WellShaped(resp)
    ensures v.Accepted? ==> BatchOf(v.batch, resp.fields["properties"].items)
    ensures v.TypeError? <==>
      resp.Obj? && "properties" in resp.fields && resp.fields["properties"].Arr?
      && NullAfterCandidates(resp.fields["properties"].items)
  {
    if !Truthy(resp) || !TypeofObject(resp) then Rejected
    else if !(resp.Obj? && "properties" in resp.fields) then Rejected
    else if !resp.fields["properties"].Arr? then Rejected
    else CheckElements(resp.fields["properties"].items)
  }

  /** An empty `properties` array passes the guard, with an empty batch. */
  lemma EmptyBatchAccepted(resp: Value)
    requires resp.Obj? && "properties" in resp.fields && resp.fields["properties"] == Arr([])
    ensures CheckShape(resp) == Accepted([])
  {
  }

  /** A bare array never passes the guard, whatever it holds. */
  lemma BareArrayRejected(items: seq<Value>)
    ensures CheckShape(Arr(items)) == Rejected
  {
  }
}

=== FILE: valuation.dfy ===
/**
 * `getValuation` and `calculateAveragePrice`
 * (src/services/propertyService.ts, lines 156-206): a direct estimate with a
 * ±10% range, or, when the prediction endpoint gives nothing, the mean price
 * of similar properties with a ±15% range. Both endpoints are oracles.
 */
module Valuation {
  import opened Wrappers
  import opened Listing

  /** A similar property as the average reads it: only its `price`, which may be missing. */
  datatype Comparable = Comparable(price: Option<real>)

  /** A reply of `predictPrice` that is an object. */
  datatype Estimate = Estimate(
    estimated_price: real,
    confidence_score: Option<real>,
    similar_properties: Option<seq<Comparable>>)

  /** A reply of `getSimilarProperties` that is an object. */
  datatype SimilarReply = SimilarReply(similar_properties: Option<seq<Comparable>>)

  /** `{...data, similarity_threshold, include_pending}`: the similar-properties query. */
  datatype SimilarQuery = SimilarQuery(data: PropertyData, similarity_threshold: real, include_pending: bool)

  datatype PriceRange = PriceRange(min: real, max: real)

  /** `ValuationResult`. */
  datatype ValuationResult = ValuationResult(
    estimated_price: real,
    confidence_score: real,
    price_range: PriceRange,
    similar_properties: Option<seq<Comparable>>)

  /** What one valuation produced: its outcome and the similar-properties queries it sent, in order. */
  datatype Appraisal = Appraisal(result: Result<ValuationResult, string>, similarQueries: seq<SimilarQuery>)

  /** The one error `getValuation` rejects with, whatever went wrong. */
  const ValuationError: string := "Failed to get property valuation. Please try again later."

  /** The query sent when no direct estimate comes back. */
  function FallbackQuery(data: PropertyData): SimilarQuery {
    SimilarQuery(data, 0.6, true)
  }

  /** `prop.price || 0`. */
  function PriceOf(c: Comparable): real {
    match c.price
    case Some(p) => p
    case None => 0.0
  }

  /** The total of the prices, added up from the front: the reference the fold is held to. */
  function PriceTotal(xs: seq<Comparable>): real {
    if |xs| == 0 then 0.0 else PriceOf(xs[0]) + PriceTotal(xs[1..])
  }

  /** Adding a price at the back of a list adds it to the total. */
  lemma {:induction false} PriceTotalSnoc(init: seq<Comparable>, x: Comparable)
    ensures PriceTotal(init + [x]) == PriceTotal(init) + PriceOf(x)
    decreases |init|
  {
    if |init| > 0 {
      assert (init + [x])[1..] == init[1..] + [x];
      PriceTotalSnoc(init[1..], x);
    }
  }

  /**
   * `reduce((acc, prop) => acc + (prop.price || 0), 0)`, folding from the
   * left; the result does not depend on the direction of the fold.
   */
  function SumPrices(xs: seq<Comparable>): (sum: real)
    ensures sum == PriceTotal(xs)
    decreases |xs|
  {
    if |xs| == 0 then 0.0
    else
      var init := xs[..|xs| - 1];
      assert xs == init + [xs[|xs| - 1]];
      PriceTotalSnoc(init, xs[|xs| - 1]);
      SumPrices(init) + PriceOf(xs[|xs| - 1])
  }

  /**
   * `calculateAveragePrice`: 0 for a missing or empty list, otherwise the
   * mean, the value whose `|xs|` copies add up to the prices' sum.
   */
  function CalculateAveragePrice(properties: Option<seq<Comparable>>): (avg: real)
    ensures properties.None? || properties.value == [] ==> avg == 0.0
    ensures properties.Some? && properties.value != [] ==>
      avg * (|properties.value| as real) == SumPrices(properties.value)
  {
    match properties
    case None => 0.0
    case Some(xs) => if |xs| == 0 then 0.0 else SumPrices(xs) / (|xs| as real)
  }

  /** Prices between `lo` and `hi` add up to between `|xs|·lo` and `|xs|·hi`. */
  lemma {:induction false} SumBetween(xs: seq<Comparable>, lo: real, hi: real)
    requires forall i :: 0 <= i < |xs| ==> lo <= PriceOf(xs[i]) <= hi
    ensures (|xs| as real) * lo <= SumPrices(xs) <= (|xs| as real) * hi
    decreases |xs|
  {
    if |xs| > 0 {
      var init := xs[..|xs| - 1];
      assert forall i :: 0 <= i < |init| ==> init[i] == xs[i];
      SumBetween(init, lo, hi);
    }
  }

  /** The mean of a non-empty list lies between its lowest and highest price. */
  lemma AverageBetween(xs: seq<Comparable>, lo: real, hi: real)
    requires xs != []
    requires forall i :: 0 <= i < |xs| ==> lo <= PriceOf(xs[i]) <= hi
    ensures lo <= CalculateAveragePrice(Some(xs)) <= hi
  {
    SumBetween(xs, lo, hi);
    var n := |xs| as real;
    var avg := CalculateAveragePrice(Some(xs));
    assert avg * n == SumPrices(xs);
    assert n * lo <= avg * n <= n * hi;
  }

  /** `min` and `max` of an estimate widened by the fraction `pct` either way. */
  predicate Spread(v: ValuationResult, pct: real) {
    v.price_range.min == v.estimated_price * (1.0 - pct)
    && v.price_range.max == v.estimated_price * (1.0 + pct)
  }

  /**
   * `getValuation`. A direct estimate is kept, its range is ±10%, and a
   * missing or zero confidence becomes 0.8. A falsy prediction reply leads
   * to exactly one similar-properties query, for the same data with a 0.6
   * similarity threshold and pending listings included; its mean price is
   * the estimate, with confidence 0.7 and a ±15% range. Anything else, a
   * throw from either endpoint or a falsy similar-properties reply, ends in
   * `ValuationError`.
   */
  function GetValuation(
    data: PropertyData,
    predictPrice: PropertyData -> Reply<Option<Estimate>>,
    getSimilarProperties: SimilarQuery -> Reply<Option<SimilarReply>>): (r: Appraisal)
    ensures |r.similarQueries| <= 1
    ensures r.similarQueries != [] <==> predictPrice(data) == Returned(None)
    ensures r.similarQueries != [] ==>
      var q := r.similarQueries[0];
      q.data == data && q.similarity_threshold == 0.6 && q.include_pending
    ensures r.result.Failure? ==> r.result.error == ValuationError
    ensures predictPrice(data).Threw? ==> r.result.Failure?
    ensures predictPrice(data).Returned? && predictPrice(data).value.Some? ==>
      var e := predictPrice(data).value.value;
      && r.result.Success?
      && r.result.value.estimated_price == e.estimated_price
      && r.result.value.confidence_score == (if e.confidence_score.Some? && e.confidence_score.value != 0.0 then e.confidence_score.value else 0.8)
      && Spread(r.result.value, 0.1)
      && r.result.value.similar_properties == e.similar_properties
    ensures r.similarQueries != [] ==>
      var fallback := getSimilarProperties(r.similarQueries[0]);
      && (r.result.Success? <==> fallback.Returned? && fallback.value.Some?)
      && (r.result.Success? ==>
            var xs := fallback.value.value.similar_properties;
            && r.result.value.estimated_price == CalculateAveragePrice(xs)
            && r.result.value.confidence_score == 0.7
            && Spread(r.result.value, 0.15)
            && r.result.value.similar_properties == xs)
  {
    match predictPrice(data)
    case Threw => Appraisal(Failure(ValuationError), [])
    case Returned(None) =>
      var query := FallbackQuery(data);
      (match getSimilarProperties(query)
       case Threw => Appraisal(Failure(ValuationError), [query])
       case Returned(None) => Appraisal(Failure(ValuationError), [query])
       case Returned(Some(reply)) =>
         var avg := CalculateAveragePrice(reply.similar_properties);
         Appraisal(Success(ValuationResult(avg, 0.7, PriceRange(avg * 0.85, avg * 1.15), reply.similar_properties)), [query]))
    case Returned(Some(e)) =>
      var confidence := if e.confidence_score.Some? && e.confidence_score.value != 0.0 then e.confidence_score.value else 0.8;
      Appraisal(Success(ValuationResult(e.estimated_price, confidence,
        PriceRange(e.estimated_price * 0.9, e.estimated_price * 1.1), e.similar_properties)), [])
  }

  /**
   * The similar-properties endpoint matters only through the queries the
   * valuation sends: two endpoints that agree on the logged queries give the
   * same valuation and the same log.
   */
  lemma OnlyLoggedQueriesMatter(
    data: PropertyData,
    predictPrice: PropertyData -> Reply<Option<Estimate>>,
    similarA: SimilarQuery -> Reply<Option<SimilarReply>>,
    similarB: SimilarQuery -> Reply<Option<SimilarReply>>)
    requires var log := GetValuation(data, predictPrice, similarA).similarQueries;
      forall j :: 0 <= j < |log| ==> similarA(log[j]) == similarB(log[j])
    ensures GetValuation(data, predictPrice, similarA) == GetValuation(data, predictPrice, similarB)
  {
    var a := GetValuation(data, predictPrice, similarA);
    if predictPrice(data) == Returned(None) {
      assert a.similarQueries[0] == FallbackQuery(data);
      assert similarA(FallbackQuery(data)) == similarB(FallbackQuery(data));
    }
  }

  /**
   * A `predictPrice` that always throws, as a call to a method the API
   * object does not define does, makes every valuation reject with the
   * fixed error, without a similar-properties query.
   */
  lemma ThrowingPredictionRejects(
    data: PropertyData,
    getSimilarProperties: SimilarQuery -> Reply<Option<SimilarReply>>)
    ensures GetValuation(data, _ => Threw, getSimilarProperties) == Appraisal(Failure(ValuationError), [])
  {
  }

  /** The range brackets the estimate exactly when the estimate is not negative. */
  lemma RangeBracketsEstimate(
    data: PropertyData,
    predictPrice: PropertyData -> Reply<Option<Estimate>>,
    getSimilarProperties: SimilarQuery -> Reply<Option<SimilarReply>>)
    ensures var r := GetValuation(data, predictPrice, getSimilarProperties).result;
      r.Success? ==>
        (r.value.price_range.min <= r.value.estimated_price <= r.value.price_range.max
         <==> r.value.estimated_price >= 0.0)
  {
  }

  /**
   * When the similar properties carry no negative price, the fallback
   * estimate lies between their lowest and highest price, and so is itself
   * not negative and inside its range.
   */
  lemma FallbackEstimateBounded(
    data: PropertyData,
    predictPrice: PropertyData -> Reply<Option<Estimate>>,
    getSimilarProperties: SimilarQuery -> Reply<Option<SimilarReply>>,
    lo: real, hi: real)
    requires predictPrice(data) == Returned(None)
    requires getSimilarProperties(FallbackQuery(data)).Returned?
    requires getSimilarProperties(FallbackQuery(data)).value.Some?
    requires var xs := getSimilarProperties(FallbackQuery(data)).value.value.similar_properties;
      xs.Some? && xs.value != [] && 0.0 <= lo
      && forall i :: 0 <= i < |xs.value| ==> lo <= PriceOf(xs.value[i]) <= hi
    ensures var r := GetValuation(data, predictPrice, getSimilarProperties).result;
      && r.Success?
      && lo <= r.value.estimated_price <= hi
      && r.value.price_range.min <= r.value.estimated_price <= r.value.price_range.max
  {
    var xs := getSimilarProperties(FallbackQuery(data)).value.value.similar_properties;
    AverageBetween(xs.value, lo, hi);
  }

  /** The similar-properties endpoint is consulted only when no direct estimate comes back. */
  lemma DirectEstimateIgnoresFallback(
    data: PropertyData,
    predictPrice: PropertyData -> Reply<Option<Estimate>>,
    similarA: SimilarQuery -> Reply<Option<SimilarReply>>,
    similarB: SimilarQuery -> Reply<Option<SimilarReply>>)
    requires predictPrice(data) != Returned(None)
    ensures GetValuation(data, predictPrice, similarA) == GetValuation(data, predictPrice, similarB)
  {
  }

  /** A direct estimate of 1,000,000 at confidence 0.85 is ranged 900,000 to 1,100,000. */
  lemma DirectEstimateExample(data: PropertyData, getSimilarProperties: SimilarQuery -> Reply<Option<SimilarReply>>)
    ensures GetValuation(data, _ => Returned(Some(Estimate(1000000.0, Some(0.85), None))), getSimilarProperties).result
      == Success(ValuationResult(1000000.0, 0.85, PriceRange(900000.0, 1100000.0), None))
  {
  }

  /** Two similar properties at 900,000 and 1,100,000 give 1,000,000, ranged 850,000 to 1,150,000. */
  lemma FallbackEstimateExample(data: PropertyData)
    ensures var similar := Some([Comparable(Some(900000.0)), Comparable(Some(1100000.0))]);
      GetValuation(data, _ => Returned(None), _ => Returned(Some(SimilarReply(similar)))).result
        == Success(ValuationResult(1000000.0, 0.7, PriceRange(850000.0, 1150000.0), similar))
  {
    var xs := [Comparable(Some(900000.0)), Comparable(Some(1100000.0))];
    assert xs[..1] == [Comparable(Some(900000.0))];
    assert SumPrices(xs) == 2000000.0;
  }
}

=== FILE: wrappers.dfy ===
/** Failure-carrying datatypes used by the service model. */
module Wrappers {

  /** A value that may be absent: a missing or `undefined` field of a record. */
  datatype Option<+T> = None | Some(value: T)

  /** Either a value or the error an `async` service call rejects with. */
  datatype Result<+R, +E> = Success(value: R) | Failure(error: E)

  /** What an oracle for a remote call does: it resolves with a value or it throws. */
  datatype Reply<+T> = Returned(value: T) | Threw
}
